=== FILE: README.md ===
# ARP cache model

A Dafny model of the address-resolution cache of a small user-space network
stack (`arp/arp_cache.c`). The cache is a fixed table of `ARP_CACHE_SIZE`
slots. Each slot is FREE, PENDING (a request is out and packets wait in a FIFO
queue) or RESOLVED (the IP-to-MAC mapping is known). The model covers:

- initialisation;
- slot allocation with its rotating cursor;
- lookup, and lookup restricted to RESOLVED entries;
- insertion of a resolved IP/MAC pair;
- the two queue drains (send and drop);
- the timer sweep, which ages entries and drives retry and expiry.

The table is a value, `Cache(slots, next)`. `|slots|` is `ARP_CACHE_SIZE`, and
`next` is the static cursor of `arp_alloc`. A slot handle is its index.
Queues are `seq<Packet>`. The outside world sees three kinds of call:
`net_out`, `free_pkg` and `arp_send_request`. Each is recorded as an `Event`
(`Sent`, `Freed`, `Requested`). Every operation returns the events it emits,
in order. The code's log of those calls is the concatenation.

Modules follow the code's structure:

- `ArpTypes` (types.dfy): entries, packets, events, the uniqueness invariant,
  and counting helpers over event logs.
- `ArpQueue` (queue.dfy): `arp_queue_send` and `arp_queue_drop`.
- `ArpCache` (cache.dfy): `arp_cache_init`, `arp_alloc`, `arp_cache_lookup`,
  `arp_cache_lookup_resolved` and `arp_insert`, all as written.
- `ArpTimer` (timer.dfy): `arp_timer` as written, plus the retry, aging and
  conservation properties of the sweep.
- `ArpCacheFixed` (fixed.dfy): corrected allocation, insert and sweep. These
  deliberately diverge from the code. See "## Findings".

The as-written modules follow the code statement by statement, including
three places where the code does not do what its own structure and comments
indicate:

- `arp_alloc`: the comments at lines 46 and 58 say the scan looks for a
  FREE slot and initialises the one it found, and the `perror` at line 54
  reports a full table. The code initialises the cursor slot instead, and
  its full-table test never holds.
- `arp_insert`: a reply for an address that already has a PENDING entry is
  expected to resolve that entry and release its parked packets;
  `arp_queue_send` (lines 68-78) exists for exactly that. `arp_insert`
  always allocates a fresh slot and never flushes. Callers of these
  functions are not part of this model, so a reply path that compensates
  cannot be excluded.
- `arp_timer`: the loop runs from `arp_cache_head` to `arp_cache_end`, and
  line 11 defines the latter as the last slot, so `ac < arp_cache_end`
  never visits that slot.

The model proves the code's actual behaviour and exhibits each gap with a
lemma. The corrected variants are proved to have the intended behaviour.

## Model

| member | source | states |
|---|---|---|
| `ArpCache.Init` | arp/arp_cache.c:25-36 | every slot becomes FREE; every other field of every slot and the allocation cursor keep their values |
| `ArpCache.FirstFree` | arp/arp_cache.c:44-50 | the index where the allocation scan stops: every slot before it is in use, and it is either a FREE slot or the table's end |
| `ArpCache.Alloc` | arp/arp_cache.c:38-66 | allocation never returns NULL; the slot it returns becomes PENDING with retry = ARP_RETRY, ttl = ARP_TIMEOUT and an empty queue; the cursor moves to it; no other slot changes |
| `ArpCache.AllocScan` | arp/arp_cache.c:40-65 | the statement-level scan loop, with its per-step cursor advance modulo the table size, returns exactly the slot and table `Alloc` describes |
| `ArpCache.AllocCanPickBusySlot` | arp/arp_cache.c:44-59 | with slot 0 FREE and the cursor on a PENDING slot 1 that holds packets, allocation returns slot 1 and empties its queue; the FREE slot is left unused |
| `ArpCache.AllocOverwritesWhenFull` | arp/arp_cache.c:52-59 | when no slot is FREE, allocation still succeeds and returns the in-use slot under the cursor |
| `ArpCache.FirstMatch` | arp/arp_cache.c:95-105 | returns the lowest in-use slot whose ip equals the argument; returns nothing exactly when no in-use slot matches |
| `ArpCache.Lookup` | arp/arp_cache.c:91-108 | the scan skips FREE slots and returns the lowest-index in-use slot with an equal 4-byte ip; it returns NULL exactly when no in-use slot matches |
| `ArpCache.LookupResolved` | arp/arp_cache.c:110-131 | the result is the slot lookup finds (no lower slot is in use for the ip) when that slot is RESOLVED: a non-NULL result is a RESOLVED slot with the given ip and no in-use slot for the ip below it, and a result exists exactly when such a slot exists |
| `ArpCache.Insert` | arp/arp_cache.c:134-150 | the slot `arp_alloc` hands back (the cursor stays on it) becomes RESOLVED with exactly the given ip and mac, retry = ARP_RETRY, ttl = ARP_TIMEOUT and an empty queue; every other slot is unchanged |
| `ArpCache.InsertIgnoresPendingEntry` | arp/arp_cache.c:137-144 | suppose a PENDING entry for the ip sits below the allocated slot. After insert it keeps its queue unflushed, two in-use slots carry the ip, and lookup_resolved still answers NULL |
| `ArpQueue.SendAll` | arp/arp_cache.c:71-77 | a flush emits one transmission per queued packet, in queue order, each with the slot's mac and the packet's protocol tag |
| `ArpQueue.DropAll` | arp/arp_cache.c:83-88 | a drop emits one free per queued packet, in queue order |
| `ArpQueue.SendAllHandsOffEachOnce` | arp/arp_cache.c:68-78 | a flush hands each queued packet off exactly once, in FIFO order, all as transmissions; it frees none and sends no request |
| `ArpQueue.DropAllHandsOffEachOnce` | arp/arp_cache.c:80-89 | a drop frees each queued packet exactly once, in FIFO order; it transmits none and sends no request |
| `ArpQueue.QueueSend` | arp/arp_cache.c:68-78 | the drain loop leaves the queue empty, changes nothing else in the slot, and emits exactly the FIFO transmissions of the original queue |
| `ArpQueue.QueueDrop` | arp/arp_cache.c:80-89 | the drain loop leaves the queue empty, changes nothing else in the slot, and emits exactly the FIFO frees of the original queue |
| `ArpTimer.Age` | arp/arp_cache.c:158-177 | a FREE slot is skipped and emits nothing; a slot keeps its state or becomes FREE; its ip and mac never change |
| `ArpTimer.AgeEffects` | arp/arp_cache.c:162-177 | ageing one slot either leaves a packet queued or frees it, in queue order, and transmits nothing. An in-use slot whose ttl outlasts the delay is only aged. A request goes out exactly when a PENDING slot's ttl has run out with at least 0 retries left, and the slot then waits again with ttl = ARP_TIMEOUT. An in-use slot is freed exactly when its ttl has run out and it is RESOLVED or out of retries |
| `ArpTimer.Sweep` | arp/arp_cache.c:156-179 | the first n slots are each aged once, in index order; the slots from n on are untouched |
| `ArpTimer.Timer` | arp/arp_cache.c:152-181 | the sweep ages slots 0 to N-2, emits their events in slot order, leaves the last slot and the cursor unchanged, and equals `Sweep` over N-1 slots |
| `ArpTimer.SweepConservesPackets` | arp/arp_cache.c:165-170 | no leak and no double free: the packets queued before a sweep equal, as a multiset, the packets still queued plus the packets freed |
| `ArpTimer.SweepSendsNothing` | arp/arp_cache.c:152-181 | the timer never transmits a packet |
| `ArpTimer.SweepPreservesUnique` | arp/arp_cache.c:156-179 | a sweep keeps the invariant "at most one in-use slot per ip" |
| `ArpTimer.RetryBound` | arp/arp_cache.c:165-176 | a PENDING slot with r >= 0 retries left, aged by the sweep body over any sequence of delays, receives at most r requests |
| `ArpTimer.RetryExhaustion` | arp/arp_cache.c:162-176 | a PENDING slot with r retries and a full ttl, aged r+1 times by ARP_TIMEOUT by the sweep body with no reply, gets exactly r requests. Then its whole queue is freed in order and it becomes FREE, with nothing transmitted |
| `ArpTimer.ResolvedAging` | arp/arp_cache.c:163-170 | a RESOLVED slot aged by the sweep body never causes a request, and it becomes FREE exactly when the elapsed time reaches its ttl |
| `ArpTimer.AgingBeforeExpiry` | arp/arp_cache.c:162-163 | an in-use slot (PENDING or RESOLVED) whose ttl outlasts the total elapsed time over any sequence of non-negative delays is only aged: its ttl drops by the total, and no request, drop or free happens |
| `ArpTimer.LastSlotFrozen` | arp/arp_cache.c:156-179 | no sequence of as-written sweeps changes the last slot: a RESOLVED entry there never expires and a PENDING one is never retried or dropped |
| `ArpTimer.TimerManyAgesSlot` | arp/arp_cache.c:152-181 | under any sequence of as-written timer calls, every slot except the last evolves exactly as one slot aged by the sweep body once per call |
| `ArpTimer.TimerExhaustsRetries` | arp/arp_cache.c:162-176 | in the table, a PENDING slot other than the last, with r retries and a full ttl, is FREE with an empty queue after r+1 as-written timer calls of ARP_TIMEOUT each |
| `ArpTimer.TimerExpiresResolved` | arp/arp_cache.c:163-170 | in the table, a RESOLVED slot other than the last becomes FREE under as-written timer calls with non-negative delays exactly when the elapsed time reaches its ttl |
| `ArpCacheFixed.AllocFixed` | arp/arp_cache.c:44-63 | corrected allocation. It fails exactly when no slot is FREE and then changes nothing. Otherwise it returns a slot that was FREE, now PENDING with the full retry budget, full ttl and an empty queue; no other slot changes |
| `ArpCacheFixed.InsertFixed` | arp/arp_cache.c:134-150 | corrected insert. It fails exactly when there is no entry for the ip and no FREE slot, and then changes nothing. When an in-use entry for the ip exists, that entry (the lowest one) is the slot updated; a FREE slot is taken only on a miss. The slot becomes RESOLVED with exactly ip and mac, the existing queue is flushed FIFO with the new mac, and no other slot changes |
| `ArpCacheFixed.InsertFixedThenLookup` | arp/arp_cache.c:110-150 | after a successful corrected insert, lookup_resolved returns the updated slot, and every packet that waited on it has been handed off in order |
| `ArpCacheFixed.InsertFixedKeepsUnique` | arp/arp_cache.c:134-150 | the corrected insert keeps "at most one in-use slot per ip" |
| `ArpCacheFixed.InsertFixedConservesPackets` | arp/arp_cache.c:68-78 | no leak and no double free: when FREE slots hold no packets, the packets the corrected insert takes from the table are exactly those it transmits |
| `ArpCacheFixed.TimerFixed` | arp/arp_cache.c:156-179 | the corrected sweep ages every slot, the last one included, and leaves the cursor alone |
| `ArpCacheFixed.TimerSkipsLastSlot` | arp/arp_cache.c:156-170 | an expired RESOLVED entry in the last slot survives the as-written sweep but is freed by the corrected one |

## Left out

- Locking: the mutex and its init, lock and unlock calls are not modelled. The model is sequential. The unlock/relock around `arp_send_request` in the sweep becomes a single `Requested` event, and the code does not re-check the slot after relocking.
- The `lookup` then relock in `arp_cache_lookup_resolved` has the same race window; sequentially it is one step.
- Diagnostics: `perror` and `printf` calls are output with no effect on the table, so they are not modelled.
- Collaborators: the bodies of `net_out`, `free_pkg` and `arp_send_request` are outside this model. They become events.
- Intrusive lists: the pointer mechanics of `list.h` are replaced by `seq<Packet>`. The byte-wise `memcmp`/`memcpy` become equality and assignment on 4-byte and 6-byte sequences.
- Constants: `ARP_CACHE_SIZE`, `ARP_RETRY` and `ARP_TIMEOUT` are defined in a header that is not part of this model. The table size is any positive length. The other two are fields of `Config` and may take any value.
- Integer width: the declarations of `ttl`, `retry` and `delay` are in a header that is not part of this model. The counters are taken to be signed, because the `ttl <= 0` and `--retry < 0` tests at lines 163 and 165 presuppose it. `retry` never goes below -1, and an expired `ttl` is reset or its slot freed, so the one place a fixed-width counter could wrap is `ttl -= delay` (line 162) under an extreme or negative `delay`. The model uses unbounded integers and does not model that overflow.
- Enqueueing: callers outside `arp_cache.c` append packets to a PENDING slot's queue. That code is not part of this model.
- Startup: `net/main.c` (thread creation, sleep loops, process start) is not part of this model.
- ArpTimer.RetryBound: bounds the requests of one slot aged by the sweep body. The table-level sweep (`ArpTimer.TimerMany`) keeps no event log across calls, so there is no table-level request count. The last slot is never aged and so never receives a request. The bound does not cover the slot being freed and re-allocated by another caller between sweeps.
- ArpTimer.RetryExhaustion: follows one slot aged by the sweep body. Under the as-written sweep it holds only for slots 0..N-2 (`ArpTimer.TimerExhaustsRetries` lifts its final state to the table). A PENDING entry in the last slot is never retried or dropped.
- ArpTimer.ResolvedAging: follows one slot aged by the sweep body. Under the as-written sweep it holds only for slots 0..N-2 (`ArpTimer.TimerExpiresResolved` lifts it to the table). A RESOLVED entry in the last slot never expires.

## Findings

| source | as written | input that shows it | evidently intended | confidence | as-written member | corrected member |
|---|---|---|---|---|---|---|
| arp/arp_cache.c:59 | the scan stops at the first FREE slot `i`, but `&arp_cache[next]` is initialised and returned | slots [FREE, PENDING with one queued packet], cursor 1: slot 1 is returned and its packet silently discarded | initialise and return `&arp_cache[i]` | high; not executed | `ArpCache.AllocCanPickBusySlot` | `ArpCacheFixed.AllocFixed` |
| arp/arp_cache.c:52 | the full-table test `i > ARP_CACHE_SIZE` can never hold after `for (i = 0; i < ARP_CACHE_SIZE; ...)` | every slot PENDING: allocation returns the slot under the cursor | test `i >= ARP_CACHE_SIZE` and return NULL | high; not executed | `ArpCache.AllocOverwritesWhenFull` | `ArpCacheFixed.AllocFixed` |
| arp/arp_cache.c:137 | insert always allocates a new slot; it never looks up an existing entry or flushes its queue | slots [PENDING for ip with queued packets, FREE], cursor 0: slot 1 becomes RESOLVED, slot 0 keeps its packets, lookup_resolved(ip) is NULL | update the existing entry, flush its queue, allocate only on a miss | medium (callers are not part of this model); not executed | `ArpCache.InsertIgnoresPendingEntry` | `ArpCacheFixed.InsertFixed` |
| arp/arp_cache.c:156 | the loop runs `ac < arp_cache_end`, and `arp_cache_end` is the last slot (line 11), so that slot is never aged | a RESOLVED entry in slot N-1 with any ttl: it never expires | `ac <= arp_cache_end` | high; not executed | `ArpTimer.LastSlotFrozen` | `ArpCacheFixed.TimerFixed` |

=== FILE: cache.dfy ===
/** The cache table as the source writes it: init, allocation, lookup and
    insert over a fixed table of slots.  Allocation and insert keep the
    source's literal behaviour (see AllocCanPickBusySlot,
    AllocOverwritesWhenFull and InsertIgnoresPendingEntry); corrected
    versions live in ArpCacheFixed. */
module ArpCache {
  import opened ArpTypes

  /** arp_cache_init: marks every slot FREE and touches nothing else (the
      other fields and the allocation cursor keep their values). */
  method Init(c: Cache) returns (c': Cache)
    ensures c'.next == c.next
    ensures |c'.slots| == |c.slots|
    ensures forall i :: 0 <= i < |c.slots| ==> c'.slots[i].state == Free
    ensures forall i :: 0 <= i < |c.slots| ==> c'.slots[i] == c.slots[i].(state := Free)
  {
    var s := c.slots;
    var i := 0;
    while i < |s|
      invariant 0 <= i <= |s| == |c.slots|
      invariant forall j :: 0 <= j < i ==> s[j] == c.slots[j].(state := Free)
      invariant forall j :: i <= j < |s| ==> s[j] == c.slots[j]
    {
      s := s[i := s[i].(state := Free)];
      i := i + 1;
    }
    c' := c.(slots := s);
  }

  /** Index of the first FREE slot, or |s| when every slot is in use. */
  function FirstFree(s: seq<Entry>): (k: nat)
    ensures k <= |s|
    ensures forall j :: 0 <= j < k ==> s[j].state != Free
    ensures k < |s| ==> s[k].state == Free
  {
    if s == [] then 0
    else if s[0].state == Free then 0
    else 1 + FirstFree(s[1..])
  }

  /** A scan position with only busy slots before it and a FREE slot (or
      the end of the table) under it is the first FREE index. */
  lemma FirstFreeAt(s: seq<Entry>, i: nat)
    requires i <= |s|
    requires forall j :: 0 <= j < i ==> s[j].state != Free
    requires i < |s| ==> s[i].state == Free
    ensures FirstFree(s) == i
  {
  }

  /** The fields arp_alloc resets: PENDING, full retry budget, full ttl and an
      empty queue; ip and mac are left as they were. */
  function Fresh(e: Entry, cfg: Config): Entry {
    e.(state := Pending, retry := cfg.retry, ttl := cfg.timeout, queue := [])
  }

  /** arp_alloc as written.  The scan finds the first FREE slot at index i but
      the slot handed back is the cursor, advanced once per busy slot passed;
      the "table full" test i > ARP_CACHE_SIZE never holds, so the result is
      never NULL. */
  function Alloc(c: Cache, cfg: Config): (res: (Cache, Option<nat>))
    requires c.Valid()
    ensures res.1.Some?
    ensures res.0.Valid() && |res.0.slots| == |c.slots|
    ensures res.0.next == res.1.value
    ensures res.0.slots[res.1.value] == Fresh(c.slots[res.1.value], cfg)
    ensures forall j :: 0 <= j < |c.slots| && j != res.1.value ==> res.0.slots[j] == c.slots[j]
  {
    var n := |c.slots|;
    var i := FirstFree(c.slots);
    if i > n then (c, Option<nat>.None)
    else
      var k := (c.next + i) % n;
      (Cache(c.slots[k := Fresh(c.slots[k], cfg)], k), Some(k))
  }

  /** Arithmetic helpers for the cursor, which arp_alloc advances modulo the table size. */
  lemma MulAtLeast(d: int, n: int)
    requires d >= 1 && n > 0
    ensures d * n >= n
  {
    assert d * n == (d - 1) * n + n;
    assert (d - 1) * n >= 0;
  }

  lemma ModUnique(a: int, n: int, q: int, r: int)
    requires n > 0 && 0 <= r < n && a == q * n + r
    ensures a % n == r
  {
    var q0, r0 := a / n, a % n;
    assert a == q0 * n + r0;
    var d := q - q0;
    assert d * n == q * n - q0 * n;
    assert d * n == r0 - r;
    if d >= 1 {
      MulAtLeast(d, n);
    } else if d <= -1 {
      MulAtLeast(-d, n);
    }
  }

  lemma ModStep(a: nat, n: nat)
    requires n > 0
    ensures (a % n + 1) % n == (a + 1) % n
  {
    var q, r := a / n, a % n;
    assert a == q * n + r;
    if r + 1 < n {
      ModUnique(r + 1, n, 0, r + 1);
      ModUnique(a + 1, n, q, r + 1);
    } else {
      ModUnique(r + 1, n, 1, 0);
      assert a + 1 == (q + 1) * n + 0;
      ModUnique(a + 1, n, q + 1, 0);
    }
  }

  /** The scan loop of arp_alloc, statement by statement: it computes exactly
      the result `Alloc` describes. */
  method AllocScan(c: Cache, cfg: Config) returns (c': Cache, r: Option<nat>)
    requires c.Valid()
    ensures (c', r) == Alloc(c, cfg)
  {
    var n := |c.slots|;
    var next := c.next;
    var i := 0;
    while i < n
      invariant 0 <= i <= n
      invariant forall j :: 0 <= j < i ==> c.slots[j].state != Free
      invariant next == (c.next + i) % n
    {
      if c.slots[i].state == Free {
        break;
      }
      ModStep(c.next + i, n);
      next := (next + 1) % n;
      i := i + 1;
    }
    FirstFreeAt(c.slots, i);
    if i > n {
      c' := c;
      r := None;
      return;
    }
    c' := Cache(c.slots[next := Fresh(c.slots[next], cfg)], next);
    r := Some(next);
  }

  /** arp_alloc can return an in-use slot while a FREE one exists:
      with slot 0 FREE and the cursor at a PENDING slot 1, the scan stops at
      once and slot 1 is re-initialised, losing its queued packet. */
  lemma AllocCanPickBusySlot(busy: Entry, idle: Entry, cfg: Config)
    requires busy.state == Pending && busy.queue != []
    requires idle.state == Free
    ensures var c := Cache([idle, busy], 1);
            var (c', r) := Alloc(c, cfg);
            && r == Some(1)
            && c.slots[1].state != Free
            && c'.slots[1].queue == []
            && c'.slots[0].state == Free
  {
    var c := Cache([idle, busy], 1);
    assert FirstFree(c.slots) == 0;
  }

  /** When no slot is FREE, arp_alloc still succeeds: it re-initialises the
      slot under the cursor, discarding its state and queue. */
  lemma AllocOverwritesWhenFull(c: Cache, cfg: Config)
    requires c.Valid()
    requires forall j :: 0 <= j < |c.slots| ==> c.slots[j].state != Free
    ensures Alloc(c, cfg).1 == Some(c.next)
    ensures c.slots[c.next].state != Free
  {
    var i := FirstFree(c.slots);
    assert i == |c.slots|;
    ModUnique(c.next + |c.slots|, |c.slots|, 1, c.next);
  }

  /** Index of the lowest in-use slot whose ip equals `ip`. */
  function FirstMatch(s: seq<Entry>, ip: IpAddr): (r: Option<nat>)
    ensures r.None? <==> forall j :: 0 <= j < |s| ==> !Matches(s[j], ip)
    ensures r.Some? ==> r.value < |s| && Matches(s[r.value], ip)
    ensures r.Some? ==> forall j :: 0 <= j < r.value ==> !Matches(s[j], ip)
  {
    if s == [] then None
    else if Matches(s[0], ip) then Some(0)
    else match FirstMatch(s[1..], ip)
      case None => None
      case Some(k) => Some(k + 1)
  }

  /** arp_cache_lookup: scans the table, skipping FREE slots, and returns the
      first slot whose 4-byte ip equals the argument; the table is unchanged. */
  method Lookup(c: Cache, ip: IpAddr) returns (r: Option<nat>)
    ensures r.None? <==> forall j :: 0 <= j < |c.slots| ==> !Matches(c.slots[j], ip)
    ensures r.Some? ==> r.value < |c.slots| && c.slots[r.value].state != Free && c.slots[r.value].ip == ip
    ensures r.Some? ==> forall j :: 0 <= j < r.value ==> !Matches(c.slots[j], ip)
  {
    var i := 0;
    while i < |c.slots|
      invariant 0 <= i <= |c.slots|
      invariant forall j :: 0 <= j < i ==> !Matches(c.slots[j], ip)
    {
      var e := c.slots[i];
      if e.state == Free {
        i := i + 1;
        continue;
      }
      if e.ip == ip {
        return Some(i);
      }
      i := i + 1;
    }
    return None;
  }

  /** arp_cache_lookup_resolved: the slot lookup finds, but only when it is
      RESOLVED.  A PENDING entry for the ip hides any later RESOLVED one. */
  function LookupResolved(c: Cache, ip: IpAddr): (r: Option<nat>)
    ensures r.Some? ==> r.value < |c.slots| && c.slots[r.value].state == Resolved && c.slots[r.value].ip == ip
    // the slot returned is the one arp_cache_lookup finds: no lower slot is in use for ip
    ensures r.Some? ==> forall j :: 0 <= j < r.value ==> !Matches(c.slots[j], ip)
    ensures r.Some? <==>
              exists k :: 0 <= k < |c.slots| && c.slots[k].state == Resolved && c.slots[k].ip == ip
                          && forall j :: 0 <= j < k ==> !Matches(c.slots[j], ip)
  {
    match FirstMatch(c.slots, ip)
    case None => None
    case Some(k) => if c.slots[k].state == Resolved then Some(k) else None
  }

  /** arp_insert as written: allocates a slot (never failing, see `Alloc`)
      and makes it RESOLVED for ip/mac.  It neither looks for an existing
      entry nor flushes any queue. */
  function Insert(c: Cache, cfg: Config, ip: IpAddr, mac: MacAddr): (c': Cache)
    requires c.Valid()
    ensures c'.Valid() && |c'.slots| == |c.slots|
    // the slot written is the one arp_alloc hands back, and the cursor stays on it
    ensures c'.next == Alloc(c, cfg).1.value
    ensures c'.slots[c'.next] == Entry(Resolved, ip, mac, cfg.retry, cfg.timeout, [])
    ensures forall j :: 0 <= j < |c.slots| && j != c'.next ==> c'.slots[j] == c.slots[j]
  {
    var (a, r) := Alloc(c, cfg);
    match r
    case None => c
    case Some(k) =>
      a.(slots := a.slots[k := a.slots[k].(state := Resolved, retry := cfg.retry, ttl := cfg.timeout, ip := ip, mac := mac)])
  }

  /** Because arp_insert ignores an existing PENDING entry for the ip at a
      lower index than the slot it allocates: that entry keeps its queue
      (nothing is flushed), two in-use slots now carry the ip, and
      arp_cache_lookup_resolved still answers NULL. */
  lemma InsertIgnoresPendingEntry(c: Cache, cfg: Config, ip: IpAddr, mac: MacAddr, m: nat)
    requires c.Valid()
    requires m < |c.slots| && c.slots[m].state == Pending && c.slots[m].ip == ip
    requires forall j :: 0 <= j < m ==> !Matches(c.slots[j], ip)
    // the slot arp_alloc hands back lies above m
    requires m < (c.next + FirstFree(c.slots)) % |c.slots|
    ensures Insert(c, cfg, ip, mac).slots[m] == c.slots[m]
    ensures !Unique(Insert(c, cfg, ip, mac).slots)
    ensures LookupResolved(Insert(c, cfg, ip, mac), ip) == None
  {
    var c' := Insert(c, cfg, ip, mac);
    var k := c'.next;
    assert k == (c.next + FirstFree(c.slots)) % |c.slots|;
    assert c'.slots[m].state != Free && c'.slots[k].state != Free && c'.slots[m].ip == c'.slots[k].ip;
    assert FirstMatch(c'.slots, ip) == Some(m) by {
      assert forall j :: 0 <= j < m ==> c'.slots[j] == c.slots[j];
    }
  }
}

=== FILE: fixed.dfy ===
/** Corrected allocation, insert and timer sweep.  These DIVERGE from the
    source on purpose: each repairs one literal defect of arp_alloc,
    arp_insert or arp_timer (documented by AllocCanPickBusySlot,
    AllocOverwritesWhenFull, InsertIgnoresPendingEntry and LastSlotFrozen)
    and is proved to have the property the defective version lacks. */
module ArpCacheFixed {
  import opened ArpTypes
  import opened ArpQueue
  import opened ArpCache
  import opened ArpTimer

  /** arp_alloc with the two repairs: the slot handed back is the FREE slot
      the scan found (index i, not the cursor), and a scan that finds none
      reports failure (i >= N) with the table untouched. */
  function AllocFixed(c: Cache, cfg: Config): (res: (Cache, Option<nat>))
    requires c.Valid()
    ensures res.0.Valid() && |res.0.slots| == |c.slots|
    ensures res.1.None? <==> forall j :: 0 <= j < |c.slots| ==> c.slots[j].state != Free
    ensures res.1.None? ==> res.0 == c
    ensures res.1.Some? ==>
              && res.1.value < |c.slots|
              && c.slots[res.1.value].state == Free
              && res.0.slots[res.1.value] == Fresh(c.slots[res.1.value], cfg)
              && forall j :: 0 <= j < |c.slots| && j != res.1.value ==> res.0.slots[j] == c.slots[j]
  {
    var n := |c.slots|;
    var i := FirstFree(c.slots);
    if i >= n then (c, None)
    else (Cache(c.slots[i := Fresh(c.slots[i], cfg)], (c.next + i) % n), Some(i))
  }

  /** Packets are parked only on slots in use. */
  predicate FreeSlotsEmpty(s: seq<Entry>) {
    forall j :: 0 <= j < |s| && s[j].state == Free ==> s[j].queue == []
  }

  /** arp_insert repaired: an existing entry for `ip` (PENDING or RESOLVED)
      is updated in place and its queue flushed, head first, with the new
      mac, so packets parked by a pending resolution leave once the reply
      arrives; only when there is no entry is a FREE slot allocated; with
      no entry and no FREE slot the reply is dropped (None) and nothing
      changes. */
  function InsertFixed(c: Cache, cfg: Config, ip: IpAddr, mac: MacAddr): (res: (Cache, Option<nat>, seq<Event>))
    requires c.Valid()
    ensures res.0.Valid() && |res.0.slots| == |c.slots|
    // failure only when there is neither an entry for ip nor a FREE slot
    ensures res.1.None? <==>
              (forall j :: 0 <= j < |c.slots| ==> !Matches(c.slots[j], ip))
              && (forall j :: 0 <= j < |c.slots| ==> c.slots[j].state != Free)
    ensures res.1.None? ==> res.0 == c && res.2 == []
    // on success the slot is RESOLVED with exactly ip and mac; nothing else changes
    ensures res.1.Some? ==>
              && res.1.value < |c.slots|
              && res.0.slots == c.slots[res.1.value := Entry(Resolved, ip, mac, cfg.retry, cfg.timeout, [])]
              && (c.slots[res.1.value].state == Free || Matches(c.slots[res.1.value], ip))
              && forall j :: 0 <= j < res.1.value ==> !Matches(c.slots[j], ip)
    // an existing entry for ip is the one updated: a FREE slot is taken only on a miss
    ensures (exists j :: 0 <= j < |c.slots| && Matches(c.slots[j], ip)) ==>
              res.1.Some? && Matches(c.slots[res.1.value], ip)
    // the packets waiting on an existing entry are sent in FIFO order with the new mac
    ensures res.1.Some? ==>
              res.2 == (if c.slots[res.1.value].state != Free then SendAll(c.slots[res.1.value].queue, mac) else [])
  {
    var resolved := Entry(Resolved, ip, mac, cfg.retry, cfg.timeout, []);
    match FirstMatch(c.slots, ip)
    case Some(k) =>
      (c.(slots := c.slots[k := resolved]), Some(k), SendAll(c.slots[k].queue, mac))
    case None =>
      var (a, r) := AllocFixed(c, cfg);
      match r
      case None => (c, None, [])
      case Some(k) =>
        (a.(slots := c.slots[k := resolved]), Some(k), [])
  }

  /** After a successful repaired insert, arp_cache_lookup_resolved finds the
      new RESOLVED entry, with the new mac. */
  lemma InsertFixedThenLookup(c: Cache, cfg: Config, ip: IpAddr, mac: MacAddr)
    requires c.Valid()
    requires InsertFixed(c, cfg, ip, mac).1.Some?
    ensures LookupResolved(InsertFixed(c, cfg, ip, mac).0, ip) == InsertFixed(c, cfg, ip, mac).1
    ensures c.slots[InsertFixed(c, cfg, ip, mac).1.value].state != Free ==>
              Handled(InsertFixed(c, cfg, ip, mac).2) == c.slots[InsertFixed(c, cfg, ip, mac).1.value].queue
  {
    var (c', r, ev) := InsertFixed(c, cfg, ip, mac);
    var k := r.value;
    FirstMatchAfterUpdate(c.slots, ip, k, c'.slots[k]);
    SendAllHandsOffEachOnce(c.slots[k].queue, mac);
  }

  /** The repaired insert keeps at most one in-use entry per IP address. */
  lemma InsertFixedKeepsUnique(c: Cache, cfg: Config, ip: IpAddr, mac: MacAddr)
    requires c.Valid()
    requires Unique(c.slots)
    ensures Unique(InsertFixed(c, cfg, ip, mac).0.slots)
  {
    var (c', r, ev) := InsertFixed(c, cfg, ip, mac);
    if r.Some? {
      var k := r.value;
      if c.slots[k].state == Free {
        assert FirstMatch(c.slots, ip).None?;
      }
      forall i, j | 0 <= i < j < |c'.slots| && c'.slots[i].state != Free && c'.slots[j].state != Free
        ensures c'.slots[i].ip != c'.slots[j].ip
      {
        if i != k && j != k {
          assert c'.slots[i] == c.slots[i] && c'.slots[j] == c.slots[j];
        }
      }
    }
  }

  /** No leak, no double free: when FREE slots hold no packets, each packet
      the repaired insert takes off the table is sent exactly once. */
  lemma InsertFixedConservesPackets(c: Cache, cfg: Config, ip: IpAddr, mac: MacAddr)
    requires c.Valid()
    requires FreeSlotsEmpty(c.slots)
    ensures Queued(c.slots) == Queued(InsertFixed(c, cfg, ip, mac).0.slots) + multiset(Handled(InsertFixed(c, cfg, ip, mac).2))
  {
    var (c', r, ev) := InsertFixed(c, cfg, ip, mac);
    if r.Some? {
      var k := r.value;
      QueuedHandOff(c.slots, k, c'.slots[k], c.slots[k].queue);
      if c.slots[k].state != Free {
        SendAllHandsOffEachOnce(c.slots[k].queue, mac);
      } else {
        assert Handled(ev) == [] == c.slots[k].queue;
      }
    }
  }

  /** Making slot k an in-use entry for `ip`, when no lower slot is in use for
      `ip`, makes k the slot lookup finds. */
  lemma FirstMatchAfterUpdate(s: seq<Entry>, ip: IpAddr, k: nat, x: Entry)
    requires k < |s|
    requires forall j :: 0 <= j < k ==> !Matches(s[j], ip)
    requires Matches(x, ip)
    ensures FirstMatch(s[k := x], ip) == Some(k)
  {
    var t := s[k := x];
    assert Matches(t[k], ip);
    assert forall j :: 0 <= j < k ==> t[j] == s[j];
  }

  /** arp_timer with the loop bound repaired: all N slots are aged. */
  function TimerFixed(c: Cache, delay: int, cfg: Config): (res: (Cache, seq<Event>))
    ensures res.0.next == c.next && |res.0.slots| == |c.slots|
    ensures forall i :: 0 <= i < |c.slots| ==> res.0.slots[i] == Age(c.slots[i], delay, cfg, i).0
  {
    var (s, ev) := Sweep(c.slots, delay, cfg, |c.slots|);
    (c.(slots := s), ev)
  }

  /** The two sweeps part on the last slot: an expired RESOLVED entry there is
      freed by the repaired sweep but survives arp_timer as written. */
  lemma TimerSkipsLastSlot(c: Cache, delay: int, cfg: Config)
    requires 0 < |c.slots|
    requires c.slots[|c.slots| - 1].state == Resolved
    requires c.slots[|c.slots| - 1].ttl - delay <= 0
    ensures Sweep(c.slots, delay, cfg, |c.slots| - 1).0[|c.slots| - 1].state == Resolved
    ensures TimerFixed(c, delay, cfg).0.slots[|c.slots| - 1].state == Free
  {
  }
}

=== FILE: queue.dfy ===
/** The per-slot pending queue and its two drains: arp_queue_send hands every
    packet to network output, arp_queue_drop returns every packet to the pool. */
module ArpQueue {
  import opened ArpTypes

  /** The transmissions a flush makes: one per packet, head first, to `mac`
      and with the packet's own protocol tag. */
  function SendAll(q: seq<Packet>, mac: MacAddr): (ev: seq<Event>)
    ensures |ev| == |q|
    ensures forall i :: 0 <= i < |q| ==> ev[i] == Sent(q[i], mac)
  {
    if q == [] then [] else [Sent(q[0], mac)] + SendAll(q[1..], mac)
  }

  /** The frees a drop makes: one per packet, head first. */
  function DropAll(q: seq<Packet>): (ev: seq<Event>)
    ensures |ev| == |q|
    ensures forall i :: 0 <= i < |q| ==> ev[i] == Freed(q[i])
  {
    if q == [] then [] else [Freed(q[0])] + DropAll(q[1..])
  }

  /** Every queued packet is handed off exactly once by a flush, in queue
      order, and a flush never frees a packet or sends a request. */
  lemma {:induction false} SendAllHandsOffEachOnce(q: seq<Packet>, mac: MacAddr)
    ensures Handled(SendAll(q, mac)) == q
    ensures Sends(SendAll(q, mac)) == |q|
    ensures Requests(SendAll(q, mac)) == 0
  {
    if q != [] {
      var ev := SendAll(q, mac);
      assert ev[1..] == SendAll(q[1..], mac);
      SendAllHandsOffEachOnce(q[1..], mac);
      assert q == [q[0]] + q[1..];
    }
  }

  /** Every queued packet is freed exactly once by a drop, in queue order,
      and a drop never transmits a packet or sends a request. */
  lemma {:induction false} DropAllHandsOffEachOnce(q: seq<Packet>)
    ensures Handled(DropAll(q)) == q
    ensures Sends(DropAll(q)) == 0
    ensures Requests(DropAll(q)) == 0
  {
    if q != [] {
      var ev := DropAll(q);
      assert ev[1..] == DropAll(q[1..]);
      DropAllHandsOffEachOnce(q[1..]);
      assert q == [q[0]] + q[1..];
    }
  }

  /** arp_queue_send: removes packets head to tail, handing each to network
      output with the slot's mac, and leaves the queue empty. */
  method QueueSend(e: Entry) returns (e': Entry, ev: seq<Event>)
    ensures e' == e.(queue := [])
    ensures ev == SendAll(e.queue, e.mac)
  {
    var q := e.queue;
    ev := [];
    while q != []
      invariant ev + SendAll(q, e.mac) == SendAll(e.queue, e.mac)
      decreases |q|
    {
      var pkt := q[0];
      assert SendAll(q, e.mac) == [Sent(pkt, e.mac)] + SendAll(q[1..], e.mac);
      q := q[1..];
      ev := ev + [Sent(pkt, e.mac)];
    }
    e' := e.(queue := q);
  }

  /** arp_queue_drop: removes packets head to tail, returning each to the
      packet pool, and leaves the queue empty. */
  method QueueDrop(e: Entry) returns (e': Entry, ev: seq<Event>)
    ensures e' == e.(queue := [])
    ensures ev == DropAll(e.queue)
  {
    var q := e.queue;
    ev := [];
    while q != []
      invariant ev + DropAll(q) == DropAll(e.queue)
      decreases |q|
    {
      var pkt := q[0];
      assert DropAll(q) == [Freed(pkt)] + DropAll(q[1..]);
      q := q[1..];
      ev := ev + [Freed(pkt)];
    }
    e' := e.(queue := q);
  }
}

=== FILE: timer.dfy ===
/** The timer sweep arp_timer: ages every in-use slot by the elapsed delay
    and, once a slot's ttl has run out, frees it (RESOLVED, or PENDING with
    its retries used up) or re-sends the ARP request (PENDING otherwise). */
module ArpTimer {
  import opened ArpTypes
  import opened ArpQueue

  /** One slot's treatment by the sweep body.  `idx` is the slot's index,
      recorded in the request event. */
  function Age(e: Entry, delay: int, cfg: Config, idx: nat): (res: (Entry, seq<Event>))
    // FREE slots are skipped
    ensures e.state == Free ==> res == (e, [])
    // a slot keeps its state or becomes FREE; its address fields never change
    ensures res.0.state == e.state || res.0.state == Free
    ensures res.0.ip == e.ip && res.0.mac == e.mac
  {
    if e.state == Free then (e, [])
    else
      var ttl := e.ttl - delay;
      if ttl > 0 then (e.(ttl := ttl), [])
      else if e.state == Pending && e.retry - 1 < 0 then
        (e.(ttl := ttl, retry := e.retry - 1, state := Free, queue := []), DropAll(e.queue))
      else if e.state == Resolved then
        (e.(ttl := ttl, state := Free), [])
      else
        (e.(ttl := cfg.timeout, retry := e.retry - 1), [Requested(idx, e.ip)])
  }

  /** What one slot's ageing hands to the outside world: each queued packet
      either stays queued or is freed, in queue order; nothing is sent; and
      at most one request goes out, only for a PENDING slot that keeps
      waiting with a fresh ttl and one retry fewer. */
  lemma AgeEffects(e: Entry, delay: int, cfg: Config, idx: nat)
    ensures Age(e, delay, cfg, idx).0.queue + Handled(Age(e, delay, cfg, idx).1) == e.queue
    ensures Sends(Age(e, delay, cfg, idx).1) == 0
    ensures Requests(Age(e, delay, cfg, idx).1) <= 1
    ensures Requests(Age(e, delay, cfg, idx).1) == 1 ==>
              && Age(e, delay, cfg, idx) == (e.(ttl := cfg.timeout, retry := e.retry - 1), [Requested(idx, e.ip)])
              && e.state == Pending && e.retry - 1 >= 0
    // a slot still in use afterwards either had time left or was retried
    ensures Age(e, delay, cfg, idx).0.state != Free ==>
              Age(e, delay, cfg, idx).0 == e.(ttl := e.ttl - delay) || Requests(Age(e, delay, cfg, idx).1) == 1
    // before its ttl runs out an in-use slot is only aged: no request, no drop
    ensures e.state != Free && e.ttl - delay > 0 ==> Age(e, delay, cfg, idx) == (e.(ttl := e.ttl - delay), [])
    // a request goes out exactly when a PENDING slot has run out of time but not of retries
    ensures Requests(Age(e, delay, cfg, idx).1) == 1 <==> e.state == Pending && e.ttl - delay <= 0 && e.retry - 1 >= 0
    // an in-use slot is freed exactly when its ttl has run out and it is RESOLVED or out of retries
    ensures e.state != Free && Age(e, delay, cfg, idx).0.state == Free <==>
              e.state != Free && e.ttl - delay <= 0 && (e.state == Resolved || e.retry - 1 < 0)
  {
    var res := Age(e, delay, cfg, idx);
    if e.state != Free && e.ttl - delay <= 0 {
      if e.state == Pending && e.retry - 1 < 0 {
        DropAllHandsOffEachOnce(e.queue);
      } else if e.state != Resolved {
        assert e.state.Pending?;
      }
    }
  }

  /** The first `n` slots aged one after another, in index order, with the
      events of each slot appended in turn; slots from `n` on are untouched. */
  function Sweep(s: seq<Entry>, delay: int, cfg: Config, n: nat): (res: (seq<Entry>, seq<Event>))
    requires n <= |s|
    ensures |res.0| == |s|
    ensures forall i :: 0 <= i < n ==> res.0[i] == Age(s[i], delay, cfg, i).0
    ensures forall i :: n <= i < |s| ==> res.0[i] == s[i]
  {
    if n == 0 then (s, [])
    else
      var prev := Sweep(s, delay, cfg, n - 1);
      var aged := Age(s[n - 1], delay, cfg, n - 1);
      (prev.0[n - 1 := aged.0], prev.1 + aged.1)
  }

  /** arp_timer as written: the loop runs `ac < arp_cache_end`, and
      arp_cache_end is the LAST slot, so only slots 0 .. N-2 are aged. */
  method Timer(c: Cache, delay: int, cfg: Config) returns (c': Cache, ev: seq<Event>)
    requires 0 < |c.slots|
    ensures (c'.slots, ev) == Sweep(c.slots, delay, cfg, |c.slots| - 1)
    ensures c'.next == c.next
    ensures c'.slots[|c.slots| - 1] == c.slots[|c.slots| - 1]
  {
    var s := c.slots;
    ev := [];
    var i := 0;
    while i < |c.slots| - 1
      invariant 0 <= i <= |c.slots| - 1
      invariant (s, ev) == Sweep(c.slots, delay, cfg, i)
    {
      assert s[i] == c.slots[i];
      var e := s[i];
      ghost var aged := Age(e, delay, cfg, i);
      if e.state == Free {
        assert Sweep(c.slots, delay, cfg, i + 1) == (s, ev) by {
          assert s[i := e] == s;
          assert ev + [] == ev;
        }
        i := i + 1;
        continue;
      }
      var out: seq<Event> := [];
      e := e.(ttl := e.ttl - delay);
      if e.ttl <= 0 {
        // `--ac->retry` is evaluated only for a PENDING slot
        var exhausted := false;
        if e.state == Pending {
          e := e.(retry := e.retry - 1);
          exhausted := e.retry < 0;
        }
        if exhausted || e.state == Resolved {
          if e.state == Pending {
            e, out := QueueDrop(e);
          }
          e := e.(state := Free);
          assert (e, out) == aged;
        } else {
          assert e.state.Pending?;
          e := e.(ttl := cfg.timeout);
          out := [Requested(i, e.ip)];
          assert (e, out) == aged;
        }
      } else {
        assert (e, out) == aged;
      }
      assert Sweep(c.slots, delay, cfg, i + 1) == (s[i := e], ev + out);
      ev := ev + out;
      s := s[i := e];
      i := i + 1;
    }
    c' := c.(slots := s);
  }

  /** The packets still owned by the table's queues. */
  function Queued(s: seq<Entry>): (m: multiset<Packet>)
    ensures s == [] ==> m == multiset{}
  {
    if s == [] then multiset{} else multiset(s[0].queue) + Queued(s[1..])
  }

  /** Moving the tail `h` of one slot's queue out of the table leaves the
      table's packets short of exactly `h`. */
  lemma {:induction false} QueuedHandOff(s: seq<Entry>, k: nat, x: Entry, h: seq<Packet>)
    requires k < |s|
    requires x.queue + h == s[k].queue
    ensures Queued(s) == Queued(s[k := x]) + multiset(h)
  {
    var t := s[k := x];
    assert Queued(t) == multiset(t[0].queue) + Queued(t[1..]);
    assert Queued(s) == multiset(s[0].queue) + Queued(s[1..]);
    if k > 0 {
      assert t[0] == s[0];
      assert t[1..] == s[1..][k - 1 := x];
      QueuedHandOff(s[1..], k - 1, x, h);
    } else {
      assert t[1..] == s[1..];
      assert multiset(s[0].queue) == multiset(x.queue) + multiset(h);
    }
  }

  /** No leak, no double free: every packet a sweep takes out of a queue is
      freed exactly once and the rest stay queued. */
  lemma {:induction false} SweepConservesPackets(s: seq<Entry>, delay: int, cfg: Config, n: nat)
    requires n <= |s|
    ensures Queued(s) == Queued(Sweep(s, delay, cfg, n).0) + multiset(Handled(Sweep(s, delay, cfg, n).1))
  {
    if n > 0 {
      var prev := Sweep(s, delay, cfg, n - 1);
      var aged := Age(s[n - 1], delay, cfg, n - 1);
      SweepConservesPackets(s, delay, cfg, n - 1);
      AgeEffects(s[n - 1], delay, cfg, n - 1);
      assert prev.0[n - 1] == s[n - 1];
      ConservedStep(s, prev.0, prev.1, n - 1, aged.0, aged.1);
      assert Sweep(s, delay, cfg, n) == (prev.0[n - 1 := aged.0], prev.1 + aged.1);
    }
  }

  /** One more slot handing the tail of its queue to the event log keeps the
      table-plus-log packet count. */
  lemma ConservedStep(s: seq<Entry>, t: seq<Entry>, ev: seq<Event>, k: nat, x: Entry, more: seq<Event>)
    requires k < |t|
    requires Queued(s) == Queued(t) + multiset(Handled(ev))
    requires x.queue + Handled(more) == t[k].queue
    ensures Queued(s) == Queued(t[k := x]) + multiset(Handled(ev + more))
  {
    QueuedHandOff(t, k, x, Handled(more));
    HandledAppend(ev, more);
    var a, b, d := Queued(t[k := x]), multiset(Handled(more)), multiset(Handled(ev));
    assert (a + b) + d == a + (d + b);
  }

  /** The timer never transmits a packet. */
  lemma {:induction false} SweepSendsNothing(s: seq<Entry>, delay: int, cfg: Config, n: nat)
    requires n <= |s|
    ensures Sends(Sweep(s, delay, cfg, n).1) == 0
  {
    if n > 0 {
      var prev := Sweep(s, delay, cfg, n - 1);
      var aged := Age(s[n - 1], delay, cfg, n - 1);
      AgeEffects(s[n - 1], delay, cfg, n - 1);
      assert Sweep(s, delay, cfg, n).1 == prev.1 + aged.1;
      SweepSendsNothing(s, delay, cfg, n - 1);
      SendsAppend(prev.1, aged.1);
    }
  }

  /** A sweep only frees slots and never changes an address, so it keeps the
      at-most-one-entry-per-IP invariant. */
  lemma SweepPreservesUnique(s: seq<Entry>, delay: int, cfg: Config, n: nat)
    requires n <= |s|
    requires Unique(s)
    ensures Unique(Sweep(s, delay, cfg, n).0)
  {
    var t := Sweep(s, delay, cfg, n).0;
    forall i, j | 0 <= i < j < |t| && t[i].state != Free && t[j].state != Free
      ensures t[i].ip != t[j].ip
    {
      assert t[i].ip == s[i].ip && s[i].state != Free by {
        if i < n { var a := Age(s[i], delay, cfg, i); }
      }
      assert t[j].ip == s[j].ip && s[j].state != Free by {
        if j < n { var a := Age(s[j], delay, cfg, j); }
      }
    }
  }

  /** One slot followed through successive sweeps with the given delays. */
  function AgeMany(e: Entry, ds: seq<int>, cfg: Config, idx: nat): (res: (Entry, seq<Event>))
    ensures e.state == Free ==> res == (e, [])
    decreases |ds|
  {
    if ds == [] then (e, [])
    else
      var first := Age(e, ds[0], cfg, idx);
      var rest := AgeMany(first.0, ds[1..], cfg, idx);
      assert e.state == Free ==> first.1 + rest.1 == [];
      (rest.0, first.1 + rest.1)
  }

  /** Retry bound: a PENDING slot with `retry` retries left gets at most
      `retry` ARP requests over any run of sweeps, however long.  A freshly
      allocated slot has retry == ARP_RETRY. */
  lemma {:induction false} RetryBound(e: Entry, ds: seq<int>, cfg: Config, idx: nat)
    requires e.state == Pending && e.retry >= 0
    ensures Requests(AgeMany(e, ds, cfg, idx).1) <= e.retry
    decreases |ds|
  {
    if ds != [] {
      var first := Age(e, ds[0], cfg, idx);
      AgeEffects(e, ds[0], cfg, idx);
      var rest := AgeMany(first.0, ds[1..], cfg, idx);
      RequestsAppend(first.1, rest.1);
      if first.0.state == Free {
        assert rest.1 == [];
      } else {
        assert first.0.state == Pending;
        if Requests(first.1) == 1 {
          RetryBound(first.0, ds[1..], cfg, idx);
        } else {
          assert first.0.retry == e.retry;
          RetryBound(first.0, ds[1..], cfg, idx);
        }
      }
    }
  }

  /** Retry exhaustion: a PENDING slot with `r` retries left and a full ttl,
      swept r + 1 times with delay ARP_TIMEOUT and no reply, is sent exactly
      r requests, then has its whole queue freed in order and becomes FREE;
      no packet is transmitted. */
  lemma {:induction false} RetryExhaustion(e: Entry, cfg: Config, idx: nat, r: nat)
    requires e.state == Pending && e.retry == r && e.ttl == cfg.timeout
    ensures AgeMany(e, Repeat(cfg.timeout, r + 1), cfg, idx) ==
              (e.(state := Free, retry := -1, ttl := 0, queue := []),
               Repeat(Requested(idx, e.ip), r) + DropAll(e.queue))
    decreases r
  {
    var ds := Repeat(cfg.timeout, r + 1);
    var first := Age(e, ds[0], cfg, idx);
    assert ds[1..] == Repeat(cfg.timeout, r);
    if r == 0 {
      assert first == (e.(state := Free, retry := -1, ttl := 0, queue := []), DropAll(e.queue));
      assert AgeMany(e, ds, cfg, idx) == (first.0, first.1 + []);
      assert first.1 + [] == Repeat(Requested(idx, e.ip), 0) + DropAll(e.queue);
    } else {
      assert first == (e.(ttl := cfg.timeout, retry := r - 1), [Requested(idx, e.ip)]);
      RetryExhaustion(first.0, cfg, idx, r - 1);
      var rest := AgeMany(first.0, ds[1..], cfg, idx);
      assert AgeMany(e, ds, cfg, idx) == (rest.0, first.1 + rest.1);
      var reqs := Repeat(Requested(idx, e.ip), r - 1);
      assert rest == (e.(state := Free, retry := -1, ttl := 0, queue := []), reqs + DropAll(e.queue));
      assert first.1 + rest.1 == ([Requested(idx, e.ip)] + reqs) + DropAll(e.queue);
    }
  }

  function Sum(ds: seq<int>): int {
    if ds == [] then 0 else ds[0] + Sum(ds[1..])
  }

  /** Resolved aging: a RESOLVED slot is never re-requested and, under
      non-negative delays, becomes FREE exactly when the elapsed time reaches
      its ttl (one ARP_TIMEOUT window after insert). */
  lemma {:induction false} ResolvedAging(e: Entry, ds: seq<int>, cfg: Config, idx: nat)
    requires e.state == Resolved && e.ttl > 0
    requires forall i :: 0 <= i < |ds| ==> ds[i] >= 0
    ensures AgeMany(e, ds, cfg, idx).1 == []
    ensures AgeMany(e, ds, cfg, idx).0.state == Free <==> Sum(ds) >= e.ttl
    decreases |ds|
  {
    if ds != [] {
      var first := Age(e, ds[0], cfg, idx);
      SumNonNegative(ds[1..]);
      if first.0.state != Free {
        assert first.0 == e.(ttl := e.ttl - ds[0]);
        ResolvedAging(first.0, ds[1..], cfg, idx);
      }
    }
  }

  /** Before expiry: an in-use slot (PENDING or RESOLVED) whose ttl outlasts
      the total elapsed time is only aged, with no request and no drop. */
  lemma {:induction false} AgingBeforeExpiry(e: Entry, ds: seq<int>, cfg: Config, idx: nat)
    requires e.state != Free
    requires forall i :: 0 <= i < |ds| ==> ds[i] >= 0
    requires Sum(ds) < e.ttl
    ensures AgeMany(e, ds, cfg, idx) == (e.(ttl := e.ttl - Sum(ds)), [])
    decreases |ds|
  {
    if ds != [] {
      SumNonNegative(ds[1..]);
      var first := Age(e, ds[0], cfg, idx);
      assert first == (e.(ttl := e.ttl - ds[0]), []);
      assert Sum(ds) == ds[0] + Sum(ds[1..]);
      AgingBeforeExpiry(first.0, ds[1..], cfg, idx);
      var rest := AgeMany(first.0, ds[1..], cfg, idx);
      assert rest.0 == e.(ttl := e.ttl - Sum(ds));
      assert AgeMany(e, ds, cfg, idx) == (rest.0, first.1 + rest.1);
      assert first.1 + rest.1 == [];
    } else {
      assert e.(ttl := e.ttl - Sum(ds)) == e;
    }
  }

  lemma {:induction false} SumNonNegative(ds: seq<int>)
    requires forall i :: 0 <= i < |ds| ==> ds[i] >= 0
    ensures Sum(ds) >= 0
  {
    if ds != [] {
      SumNonNegative(ds[1..]);
    }
  }

  /** The table followed through successive as-written sweeps. */
  function TimerMany(s: seq<Entry>, ds: seq<int>, cfg: Config): (t: seq<Entry>)
    requires 0 < |s|
    ensures |t| == |s|
    decreases |ds|
  {
    if ds == [] then s
    else TimerMany(Sweep(s, ds[0], cfg, |s| - 1).0, ds[1..], cfg)
  }

  /** The last slot is never aged by arp_timer as written: whatever its state,
      ttl and queue, no number of sweeps changes it (a RESOLVED entry there
      never expires, a PENDING one is never retried nor dropped). */
  lemma {:induction false} LastSlotFrozen(s: seq<Entry>, ds: seq<int>, cfg: Config)
    requires 0 < |s|
    ensures TimerMany(s, ds, cfg)[|s| - 1] == s[|s| - 1]
    decreases |ds|
  {
    if ds != [] {
      var t := Sweep(s, ds[0], cfg, |s| - 1).0;
      LastSlotFrozen(t, ds[1..], cfg);
    }
  }

  /** Every slot but the last is aged by each as-written sweep exactly as
      `AgeMany` follows it: the single-slot lemmas above hold for slots
      0 .. N-2 of the table under arp_timer as written. */
  lemma {:induction false} TimerManyAgesSlot(s: seq<Entry>, ds: seq<int>, cfg: Config, i: nat)
    requires i < |s| - 1
    ensures TimerMany(s, ds, cfg)[i] == AgeMany(s[i], ds, cfg, i).0
    decreases |ds|
  {
    if ds != [] {
      var t := Sweep(s, ds[0], cfg, |s| - 1).0;
      TimerManyAgesSlot(t, ds[1..], cfg, i);
    }
  }

  /** Retry exhaustion at table level: a PENDING slot other than the last,
      with r retries and a full ttl, is FREE with an empty queue after r + 1
      as-written sweeps of ARP_TIMEOUT each. */
  lemma TimerExhaustsRetries(s: seq<Entry>, cfg: Config, i: nat, r: nat)
    requires i < |s| - 1
    requires s[i].state == Pending && s[i].retry == r && s[i].ttl == cfg.timeout
    ensures TimerMany(s, Repeat(cfg.timeout, r + 1), cfg)[i] ==
              s[i].(state := Free, retry := -1, ttl := 0, queue := [])
  {
    TimerManyAgesSlot(s, Repeat(cfg.timeout, r + 1), cfg, i);
    RetryExhaustion(s[i], cfg, i, r);
  }

  /** Resolved expiry at table level: a RESOLVED slot other than the last
      becomes FREE under as-written sweeps with non-negative delays exactly
      when the elapsed time reaches its ttl. */
  lemma TimerExpiresResolved(s: seq<Entry>, ds: seq<int>, cfg: Config, i: nat)
    requires i < |s| - 1
    requires s[i].state == Resolved && s[i].ttl > 0
    requires forall k :: 0 <= k < |ds| ==> ds[k] >= 0
    ensures TimerMany(s, ds, cfg)[i].state == Free <==> Sum(ds) >= s[i].ttl
  {
    TimerManyAgesSlot(s, ds, cfg, i);
    ResolvedAging(s[i], ds, cfg, i);
  }
}

=== FILE: types.dfy ===
/** Data model of the ARP cache: one fixed table of slots, each tracking the
    resolution state of one IPv4 address, plus the events the cache hands to
    its external collaborators (network output, the packet pool and the ARP
    request transmitter). */
module ArpTypes {

  type Byte = b: int | 0 <= b < 256

  /** A 4-byte IPv4 address, compared byte-wise (the source uses memcmp over 4 bytes). */
  type IpAddr = s: seq<Byte> | |s| == 4 witness [0, 0, 0, 0]

  /** A 6-byte link-layer address. */
  type MacAddr = s: seq<Byte> | |s| == 6 witness [0, 0, 0, 0, 0, 0]

  datatype State = Free | Pending | Resolved

  /** A queued packet buffer: an opaque handle plus the protocol tag it is sent with. */
  datatype Packet = Packet(handle: nat, proto: nat)

  /** One slot of the table. `retry` and `ttl` are taken to be signed counters:
      the timer's `ttl <= 0` and `--retry < 0` tests presuppose it. */
  datatype Entry = Entry(
    state: State,
    ip: IpAddr,
    mac: MacAddr,
    retry: int,
    ttl: int,
    queue: seq<Packet>)

  /** Effects on the world outside the table, in the order they happen:
      `Sent(p, m)` is the call net_out(p, m, p's protocol tag), `Freed` a call to free_pkg and
      `Requested` a call to arp_send_request for the slot with that index. */
  datatype Event =
    | Sent(pkt: Packet, dst: MacAddr)
    | Freed(pkt: Packet)
    | Requested(slot: nat, ip: IpAddr)

  datatype Option<T> = None | Some(value: T)

  /** The compile-time constants ARP_RETRY and ARP_TIMEOUT.  Their values
      live in a header outside this model; no result here depends on them
      beyond what each lemma states. */
  datatype Config = Config(retry: int, timeout: int)

  /** The table (ARP_CACHE_SIZE == |slots|) and the static allocation cursor
      `next` of arp_alloc, which is always an index of the table. */
  datatype Cache = Cache(slots: seq<Entry>, next: nat) {
    predicate Valid() {
      0 < |slots| && next < |slots|
    }
  }

  /** True when a slot is in use for `ip`: the test arp_cache_lookup applies. */
  predicate Matches(e: Entry, ip: IpAddr) {
    e.state != Free && e.ip == ip
  }

  /** At most one slot in use per IP address. */
  predicate Unique(s: seq<Entry>) {
    forall i, j :: 0 <= i < j < |s| && s[i].state != Free && s[j].state != Free ==> s[i].ip != s[j].ip
  }

  /** `n` copies of `x`. */
  function Repeat<T>(x: T, n: nat): (s: seq<T>)
    ensures |s| == n
    ensures forall i :: 0 <= i < n ==> s[i] == x
  {
    if n == 0 then [] else [x] + Repeat(x, n - 1)
  }

  /** The packets an event sequence hands off (sent or freed), in order. */
  function Handled(ev: seq<Event>): (p: seq<Packet>)
    ensures |p| <= |ev|
  {
    if ev == [] then []
    else (match ev[0]
          case Sent(pkt, _) => [pkt]
          case Freed(pkt) => [pkt]
          case Requested(_, _) => []) + Handled(ev[1..])
  }

  /** Number of ARP requests in an event sequence. */
  function Requests(ev: seq<Event>): (n: nat)
    ensures n <= |ev|
  {
    if ev == [] then 0
    else (if ev[0].Requested? then 1 else 0) + Requests(ev[1..])
  }

  /** Number of transmissions in an event sequence. */
  function Sends(ev: seq<Event>): (n: nat)
    ensures n <= |ev|
  {
    if ev == [] then 0
    else (if ev[0].Sent? then 1 else 0) + Sends(ev[1..])
  }

  lemma {:induction false} HandledAppend(a: seq<Event>, b: seq<Event>)
    ensures Handled(a + b) == Handled(a) + Handled(b)
  {
    if a != [] {
      assert (a + b)[1..] == a[1..] + b;
      HandledAppend(a[1..], b);
    } else {
      assert a + b == b;
    }
  }

  lemma {:induction false} RequestsAppend(a: seq<Event>, b: seq<Event>)
    ensures Requests(a + b) == Requests(a) + Requests(b)
  {
    if a != [] {
      assert (a + b)[1..] == a[1..] + b;
      RequestsAppend(a[1..], b);
    } else {
      assert a + b == b;
    }
  }

  lemma {:induction false} SendsAppend(a: seq<Event>, b: seq<Event>)
    ensures Sends(a + b) == Sends(a) + Sends(b)
  {
    if a != [] {
      assert (a + b)[1..] == a[1..] + b;
      SendsAppend(a[1..], b);
    } else {
      assert a + b == b;
    }
  }
}
